=== FILE: README.md ===
# Lightbox navigation and overlay state machine, in Dafny

This project models the core of the `react-images` lightbox: a modal overlay that
shows one image of a list, lets the user step through the list, and keeps
three browser-global side effects in step with its open/closed state. Those
effects are the window keydown listener, the window resize listener and the
body scroll lock.

The core exists in two versions, and both are modelled:

- **`EarlyLightbox`** (`src/Lightbox.js`). The component owns `currentImage`.
  It seeds `currentImage` from `initialImage`, steps it with the arrow keys,
  and re-seeds it on every props update. It also attaches the keydown handler
  and hides the body overflow while open.
- **`Lightbox`, `LightboxRender`, `BodyScroll`, `Theme`** (module 3 and module 11 of
  `examples/dist/standalone.js`). Here the index is a prop owned by the caller.
  Navigation fires `onClickNext` / `onClickPrev` instead of moving the index.
  Scroll locking goes through an idempotent module-wide flag. A static
  `theme` helper merges style overrides into the default stylesheet.
- **`Lifecycle`** drives one instance of the bundled component through any
  sequence of props updates, up to its unmount, twice: once as the bundle is written
  (`RunAsWritten`), and once with the corrected update and unmount of
  "## Findings" (`Run`).

The style is functional. Props, component state and the browser globals
(`World`) are immutable records. Every handler is a pure function that returns
the new state, the ordered log of effects it emitted (`PreventDefault`,
`StopPropagation`, `Fired(callback)`), and how it completed. A completion is
either `Normal(value)` or `TypeError`. `TypeError` is what JavaScript throws
when code calls a callback prop the caller did not supply, or reads
`images.length` when no images were given. The model never assumes the
callbacks or the images are present. A listener registry is a set, because
the DOM ignores a second `addEventListener` call with the same type and the
same bound function.

Numbers that reach the screen as text, like the `"3 of 10"` count or the
`"17px"` scroll-bar padding, go through `NumberText.Decimal`. This is
JavaScript's integer-to-string conversion for magnitudes below 10^21, which
covers every image count and scroll-bar width. Its partner parser is proved
to read every number back.

Three behaviours of the code a reader may not expect:

- The end-of-list guards are `===` comparisons. An index outside the list, or
  an empty list, is not clamped: "next" keeps climbing (`NextOnEmptyListClimbs`).
- The bundled `close` checks that `onClose` exists. The keyboard path calls
  `onClose` without checking, so a missing `onClose` is a `TypeError` there.
- The window height is read only when keyboard input is enabled, and neither
  version releases anything on unmount. See "## Findings".

## Model

| member | source | states |
|---|---|---|
| `EarlyLightbox.InitialState` | src/Lightbox.js:31-35 | on mount the index is the `initialImage` prop, unchecked |
| `EarlyLightbox.ReceivePropsResetsToInitial` | src/Lightbox.js:31-39 | every props update puts the index back where mounting with the same props would: `initialImage`, unchecked |
| `EarlyLightbox.GotoPrevious` | src/Lightbox.js:65-71 | at index 0 the state is unchanged; at any other index it becomes index - 1 |
| `EarlyLightbox.GotoNext` | src/Lightbox.js:72-78 | at the last index the state is unchanged, elsewhere the index goes up by one; with no images it throws |
| `EarlyLightbox.NavigationStaysInRange` | src/Lightbox.js:65-78 | from a valid index of a non-empty list, both steps land on a valid index and "next" does not throw |
| `EarlyLightbox.StepsAreInverse` | src/Lightbox.js:65-78 | away from the ends, "previous" undoes "next" and "next" undoes "previous" |
| `EarlyLightbox.NextOnEmptyListClimbs` | src/Lightbox.js:73 | the `===` guard does not stop "next" on an empty list: the index leaves every range |
| `EarlyLightbox.HandleKeyboardInput` | src/Lightbox.js:54-64 | key 37 acts exactly as "previous" and key 39 exactly as "next", returning undefined; key 27 fires `onCancel` once and keeps the index; every other key returns false and changes nothing |
| `EarlyLightbox.RunKeysStaysInRange` | src/Lightbox.js:42-78 | for any key sequence from a valid index, whichever callbacks were supplied, the index stays valid; a key throws exactly when it is Escape and `onCancel` is missing, and the listener keeps handling later keys |
| `EarlyLightbox.RunKeysFiresCancelPerEscape` | src/Lightbox.js:54-64 | over any key sequence, `onCancel` fires exactly once per Escape when supplied and never otherwise; no other effect is emitted |
| `EarlyLightbox.ThrowDoesNotEndTheRun` | src/Lightbox.js:42-78 | without images, Right then Left from index 2: "next" throws and leaves the index, and the Left key still moves it to 1 |
| `EarlyLightbox.ReceiveProps` | src/Lightbox.js:36-52 | the keydown handler is attached iff open with keyboard input enabled, and no other listener changes; the body overflow is hidden iff open; the index becomes `initialImage` |
| `EarlyLightbox.ReceivePropsIdempotent` | src/Lightbox.js:36-52 | receiving the same props again changes nothing: no duplicate listener |
| `EarlyLightbox.RunUpdatesFollowsLast` | src/Lightbox.js:36-52 | after any non-empty run of updates, listener, overflow and index are decided by the last props alone |
| `EarlyLightbox.RenderImages` | src/Lightbox.js:124-136 | nothing is shown iff the images are absent or empty; on a valid index it shows `images[currentImage]`; off the list it shows an image without a source |
| `EarlyLightbox.RenderArrowPrev` | src/Lightbox.js:80-90 | the previous arrow is absent exactly at index 0 |
| `EarlyLightbox.RenderArrowNext` | src/Lightbox.js:91-101 | the next arrow is absent exactly at index n-1; with no images it throws |
| `EarlyLightbox.RenderBackdrop` | src/Lightbox.js:102-106 | the backdrop exists iff open, and is clickable iff `backdropClosesModal` is set and `onCancel` exists; its click handler is `onCancel` |
| `EarlyLightbox.RenderCloseButton` | src/Lightbox.js:107-111 | the close button exists iff `showCloseButton`; it has a click handler iff `onCancel` exists, and that handler is `onCancel` |
| `EarlyLightbox.ArrowsMatchSteps` | src/Lightbox.js:65-101 | the previous arrow is shown iff "previous" would move the index; the next arrow is shown iff "next" would move it, and fails to render iff "next" would throw |
| `EarlyLightbox.CloseControlsActAsEscape` | src/Lightbox.js:59-111 | a click on the close button or on a closing backdrop emits exactly what Escape emits, `onCancel` once; a close button shown without a handler stands where Escape would throw |
| `EarlyLightbox.RenderDialog` | src/Lightbox.js:112-123 | closed, the dialog renders nothing; open, it throws exactly when the images are absent, because the next arrow reads their length |
| `EarlyLightbox.Render` | src/Lightbox.js:137-146 | when rendering succeeds, dialog and backdrop are each present iff open |
| `EarlyLightbox.RenderShowsCurrentImage` | src/Lightbox.js:103-134 | closed, the portal gets nothing; open on a valid index, it shows that image, with the previous arrow iff index > 0 and the next arrow iff index < n-1 |
| `Theme.Extend` | examples/dist/standalone.js:160 | an object spread keeps the union of the keys, and the later source wins on each key it names |
| `Theme.ThemeSheet` | examples/dist/standalone.js:232-240 | the result has exactly the default rule names; a rule present in both gets the default's properties plus the override's, and the override wins; every other rule keeps its default |
| `Theme.NoOverridesIsDefault` | examples/dist/standalone.js:232-240 | no overrides yield the default stylesheet |
| `Theme.UnknownRulesIgnored` | examples/dist/standalone.js:234-235 | override rules the defaults lack have no effect |
| `Theme.ThemeIdempotent` | examples/dist/standalone.js:232-240 | theming twice with the same overrides equals theming once |
| `Theme.ThemeComposes` | examples/dist/standalone.js:232-240 | two successive themings equal one theming with the rule-wise merge of both override sets |
| `BodyScroll.BlockScroll` | examples/dist/standalone.js:869-886 | already blocked, no window or no body: nothing changes; otherwise the flag is set, `overflowY` is hidden, and the right padding is the scroll-bar width in px; a negative width is refused by the browser, so the right padding keeps its previous value |
| `BodyScroll.AllowScroll` | examples/dist/standalone.js:852-867 | not blocked, no window or no body: nothing changes; otherwise the flag is cleared and both styles are reset |
| `BodyScroll.BlockIdempotent` | examples/dist/standalone.js:869-870 | blocking twice equals blocking once |
| `BodyScroll.AllowIdempotent` | examples/dist/standalone.js:852-853 | allowing twice equals allowing once |
| `BodyScroll.FlagFollowsLastCall` | examples/dist/standalone.js:850-886 | when the body is reachable, the flag is true after a block and false after an allow |
| `BodyScroll.AllowUndoesBlock` | examples/dist/standalone.js:850-886 | locking and then unlocking a clean page restores it exactly |
| `BodyScroll.SingleAllowReleasesTwoBlocks` | examples/dist/standalone.js:847-850 | the guard is one flag, not a count: one unlock releases two lock requests |
| `Js.Invoke` | src/Lightbox.js:59-60 | calling a callback prop fires it when it was supplied and throws a `TypeError`, firing nothing, when it was not |
| `Js.InvokeFiresOnce` | examples/dist/standalone.js:295 | a call fires the called callback once when supplied, and no other callback |
| `NumberText.Decimal` | examples/dist/standalone.js:879 | the text of an integer: a minus sign exactly for negatives, then digits without a leading zero |
| `NumberText.DecimalRoundTrip` | examples/dist/standalone.js:879 | the text of an integer, as in `scrollBarWidth + 'px'`, parses back to that integer |
| `NumberText.DecimalInjective` | examples/dist/standalone.js:879 | distinct integers are written differently |
| `Lightbox.WithDefaults` | examples/dist/standalone.js:549-557 | the caller's images, open flag and callbacks are kept; `currentImage` 0, keyboard input on, separator " of ", close button and count shown, width 900; `backdropClosesModal` and `customControls` have no default and read as false |
| `Lightbox.DefaultBackdropDoesNotClose` | examples/dist/standalone.js:549-557 | `backdropClosesModal` has no default, so with the defaults a backdrop click never closes |
| `Lightbox.Close` | examples/dist/standalone.js:280-286 | `onClose` fires, once, iff the click hit the container itself, `backdropClosesModal` is set and `onClose` exists; otherwise nothing happens |
| `Lightbox.Request` | examples/dist/standalone.js:291-295 | the event, when there is one, is cancelled first (`preventDefault`, then `stopPropagation`), and then the requested callback is called: it fires when supplied and is the only callback fired, otherwise the call throws |
| `Lightbox.GotoNext` | examples/dist/standalone.js:289-296 | with no images it throws before doing anything; at the last index nothing happens; elsewhere the event is cancelled and then `onClickNext` is called, which is all it emits; there is no index to change |
| `Lightbox.GotoPrev` | examples/dist/standalone.js:299-306 | at index 0 nothing happens; elsewhere the event is cancelled and then `onClickPrev` is called, which is all it emits; the images are never read |
| `Lightbox.RequestFiresOnly` | examples/dist/standalone.js:291-295 | a request fires the requested callback exactly once when supplied, and no other callback |
| `Lightbox.StepsFireOwnCallbackOnce` | examples/dist/standalone.js:289-306 | away from its end each step fires its own callback exactly once when supplied; "next" never fires `onClickPrev` and "previous" never fires `onClickNext` |
| `Lightbox.HandleImageClick` | examples/dist/standalone.js:309-313 | `onClickImage` fires iff supplied |
| `Lightbox.HandleKeyboardInput` | examples/dist/standalone.js:316-328 | keys 37 and 39 emit exactly what "previous" and "next" emit, key 27 fires `onClose`; key 37 throws iff it is off the first image and `onClickPrev` is missing, key 39 iff the images are absent or it is off the last image and `onClickNext` is missing, key 27 iff `onClose` is missing; otherwise these three return true; any other key returns false and fires nothing |
| `Lightbox.KeyHandledIff` | examples/dist/standalone.js:316-328 | whenever the handler returns, it returns true iff the key is 37, 39 or 27 |
| `Lightbox.EscapeClosesOnce` | examples/dist/standalone.js:323-325 | Escape fires `onClose` exactly once and returns true |
| `Lightbox.RequestsStayInRange` | examples/dist/standalone.js:289-306 | from a valid index, every move the component asks the caller for lands on a valid index |
| `Lightbox.HandleResize` | examples/dist/standalone.js:331-335 | the stored height is `window.innerHeight`, or 0 when that is undefined |
| `Lightbox.ReceiveProps` | examples/dist/standalone.js:255-272 | without a DOM nothing changes; otherwise both handlers are present iff open with keyboard input enabled, the height is read exactly then, no other listener changes, and scrolling is blocked iff open |
| `Lightbox.ReceivePropsIdempotent` | examples/dist/standalone.js:255-272 | receiving the same props twice equals receiving them once: no duplicate handler, no second lock |
| `Lightbox.UnmountAsWritten` | examples/dist/standalone.js:253-272 | the component defines no unmount hook, so unmounting leaves listeners and lock as they are |
| `Lightbox.UnmountWhileOpenLeaks` | examples/dist/standalone.js:253-272 | opening and then unmounting leaves both handlers attached and the page locked |
| `Lightbox.Unmount` | examples/dist/standalone.js:255-272 | corrected unmount: with a DOM, both handlers are gone, the lock is released and no other listener changes; without a DOM nothing changes |
| `Lightbox.ReceivePropsIntended` | examples/dist/standalone.js:255-272 | corrected update: keydown handler iff open with keyboard enabled; resize handler and height read iff open; scrolling blocked iff open |
| `LightboxRender.JoinComma` | examples/dist/standalone.js:484 | `join()` of the variants: empty for none, otherwise it starts with the first variant and adds one comma between each two |
| `LightboxRender.SrcsetRoundTrip` | examples/dist/standalone.js:483-486 | splitting the joined candidate string at commas gives back the comma-free variants, in order |
| `LightboxRender.ResponsiveSources` | examples/dist/standalone.js:480-486 | `srcSet` and `sizes` are set iff the image has a srcset, even an empty one; `sizes` is "100vw" and `srcSet` is the comma-joined variants |
| `LightboxRender.CandidateStringListsVariants` | examples/dist/standalone.js:483-486 | the candidate string lists exactly the image's variants |
| `LightboxRender.TwoVariantSrcset` | examples/dist/standalone.js:483-486 | variants "a-1x.jpg" and "a-2x.jpg" give "a-1x.jpg,a-2x.jpg" with sizes "100vw" |
| `LightboxRender.CountText` | examples/dist/standalone.js:447-453 | the count text is as long as the 1-based position, the separator and the total together; it starts with the position, the separator follows it, and it ends with the total |
| `LightboxRender.CountTextRoundTrip` | examples/dist/standalone.js:447-453 | the count reads position + 1, then the separator, then the total: both numbers parse back out of the text whenever the separator does not start with a digit |
| `LightboxRender.RenderFooter` | examples/dist/standalone.js:437-466 | no footer iff the caption is falsy and `showImageCount` is off; the count is shown iff `showImageCount`, the caption iff truthy |
| `LightboxRender.RenderImages` | examples/dist/standalone.js:469-510 | nothing without images; an index off a non-empty list throws; on a valid index the figure shows that image's source, srcset, caption footer, pointer cursor iff `onClickImage`, and the last window height as maximum |
| `LightboxRender.ImageClickMatchesCursor` | examples/dist/standalone.js:309-313 | on a valid index the image shows the pointer cursor iff clicking it fires `onClickImage`, and the plain cursor iff the click does nothing |
| `LightboxRender.ArrowsMatchRequests` | examples/dist/standalone.js:289-374 | each arrow is shown iff clicking it does something; with its callback supplied, iff the click asks for exactly one move; the next arrow throws iff "next" throws before cancelling the click |
| `LightboxRender.RenderArrowPrev` | examples/dist/standalone.js:343-357 | the previous arrow is absent exactly at index 0 |
| `LightboxRender.RenderArrowNext` | examples/dist/standalone.js:360-374 | the next arrow is absent exactly at index n-1; with no images it throws |
| `LightboxRender.RenderDialog` | examples/dist/standalone.js:410-434 | closed, nothing; open on a valid index: the figure of the current image, the previous arrow iff index > 0, the next arrow iff index < n-1, and the close bar |
| `LightboxRender.ThreeImageArrows` | examples/dist/standalone.js:343-374 | with three images: both arrows at index 1, no previous arrow at 0, no next arrow at 2 |
| `Lifecycle.RunAsWrittenSettles` | examples/dist/standalone.js:255-272 | as written, with a DOM, after any run of one instance that received props, both handlers follow the last props' `isOpen && enableKeyboardInput` and the lock its `isOpen`, whether or not the instance then unmounted; other listeners are untouched |
| `Lifecycle.UnmountAsWrittenLeaks` | examples/dist/standalone.js:253-272 | as written, an instance unmounted while open ends its life with both handlers attached and the page locked, whatever events come after |
| `Lifecycle.OpenCloseTwiceLeavesNothingAsWritten` | examples/dist/standalone.js:255-272 | as written, open, close, open, close leaves no handler of the component and an unlocked page |
| `Lifecycle.RunSettles` | examples/dist/standalone.js:255-272 | corrected update and unmount: with a DOM, after any non-empty run of one instance the handlers and the lock match the last event it received (keydown iff open with keyboard, resize and lock iff open, nothing after its unmount), and other listeners are untouched |
| `Lifecycle.RunWithoutDomIsInert` | examples/dist/standalone.js:256 | without a DOM no run touches the globals |
| `Lifecycle.OpenCloseTwiceLeavesNothing` | examples/dist/standalone.js:255-272 | corrected update: open, close, open, close leaves no handler of the component and an unlocked page |
| `Lifecycle.KeyboardOffCollapsesImage` | examples/dist/standalone.js:258-266 | as written, opening with keyboard input disabled renders the image with maximum height 0 |
| `Lifecycle.OpenSizesImage` | examples/dist/standalone.js:258-266 | with the corrected update, an open lightbox's image is bounded by the window height |

## Left out

- React rendering itself (element trees, JSX, jss style sheets, class names, SVG icons). The model keeps only the decisions: which element appears, with which source, count and handlers.
- `Fade`: its behaviour is timer- and transition-hook driven.
- `Portal`: it only creates and removes a DOM node. `Render` and `RenderDialog` stand for what it receives.
- The demo page `examples/src/components/Gallery.js`. Swipe gestures (`react-swipeable`) are just more callers of `gotoNext` / `gotoPrev` with an event.
- `bindFunctions`, the bundler prelude and the Babel helpers, except `_extends` (`Theme.Extend`).
- In the bundle, browser reads are inputs (`BodyScroll.Env`, `Lightbox.World`): `canUseDom`, whether `window` and `document.body` exist, `window.innerHeight`, and the scroll-bar width. The early component has no such input; see the `EarlyLightbox.ReceiveProps` line. The `console.error` of the `bodyScroll` catch branches is not recorded. Only the state those branches leave behind is modelled, which is unchanged.
- Within one handler, effects emitted before a `TypeError` are kept in the log and nothing after the throw runs. The listener stays registered, so the next event is still handled (`EarlyLightbox.RunKeys`).
- `NumberText.Decimal`: writes every integer in plain digits. JavaScript writes magnitudes of 10^21 and more in exponent form (`"1e+21"`); no image count or scroll-bar width comes near that.
- `Lightbox.World` holds the handlers of one component instance. The `bodyBlocked` flag of `examples/dist/standalone.js:850` is shared by every lightbox on the page, so two lightboxes open together would share one lock; composing several instances is not modelled.
- `Lifecycle` follows one instance, which receives nothing after it unmounts. A later instance binds handlers of its own (`bindFunctions`, `examples/dist/standalone.js:248`), so its `removeEventListener` calls cannot remove what an earlier instance leaked. Only the leak within the instance's own run is modelled (`UnmountAsWrittenLeaks`); that no later instance can undo it is not.
- `getDefaultProps` of `src/Lightbox.js`: props are taken as already resolved. The bundled defaults are given by `Lightbox.WithDefaults`.
- Prop-type checking: out-of-type props (a non-integer `currentImage`, a non-string URL) are not representable.
- `Theme.ThemeSheet`: override entries are taken to be objects. A JavaScript override that is a string or `null` would be spread differently, and this is not modelled. The argument is a map, so `theme()` with no argument, or with `null` or another non-object, cannot be expressed: in JavaScript it throws a `TypeError` at `key in themeStyles` (examples/dist/standalone.js:235).
- `BodyScroll.BlockScroll`: the right padding is promised to be the width in px only for a width of zero or more. The code writes "-Npx" for a negative width, which the browser refuses, so the model keeps the previous padding there. Other values the browser would refuse are not modelled; `NaN` is one, and an integer input cannot carry it.
- `EarlyLightbox.ReceiveProps`: `BODY` is looked up once, when the module loads (src/Lightbox.js:6). If that happens before `<body>` exists, `BODY` is undefined and the overflow write (src/Lightbox.js:47-51) throws a `TypeError` after the keydown listener has already been added or removed. The model takes the body to exist and does not express that throw.
- `EarlyLightbox` has the same missing unmount hook as the bundle. Only the bundle's corrected unmount is modelled.

## Findings

| source | as written | input that shows it | evidently intended | confidence | as-written member | corrected member |
|---|---|---|---|---|---|---|
| examples/dist/standalone.js:253-272 | the component has no `componentWillUnmount`, so its keydown and resize handlers and the body scroll lock outlive it (`src/Lightbox.js` has the same gap) | a props update with `isOpen` and `enableKeyboardInput` true, then unmount: both handlers stay attached and the body stays locked | unmounting detaches both handlers and releases the lock | medium; not executed | `Lightbox.UnmountWhileOpenLeaks` | `Lightbox.Unmount` |
| examples/dist/standalone.js:258-266 | `handleResize` runs, and the resize handler is attached, only when `isOpen && enableKeyboardInput`; the window height otherwise stays at its initial 0 | a props update with `isOpen` true and `enableKeyboardInput` false on a window of height 800: the figure gets `maxHeight` 0 | the height is read and tracked whenever the lightbox is open, since sizing is unrelated to keyboard input | medium; not executed | `Lifecycle.KeyboardOffCollapsesImage` | `Lightbox.ReceivePropsIntended` |

=== FILE: body_scroll.dfy ===
/**
 The bundle's `bodyScroll` utility: a module-wide `bodyBlocked` flag guarding
 the two writes to the document body's style, so that locking an already
 locked page, or unlocking an unlocked one, does nothing.
 */
module BodyScroll {
  import opened NumberText

  /** What the browser offers at the moment of the call. `scrollBarWidth` is
      `window.innerWidth - document.body.clientWidth`, read as an opaque input. */
  datatype Env = Env(hasWindow: bool, hasBody: bool, scrollBarWidth: int)

  /** The `bodyBlocked` flag together with the two body style properties it guards. */
  datatype Body = Body(blocked: bool, paddingRight: string, overflowY: string)

  /** A page nobody has locked yet. */
  const Unlocked: Body := Body(false, "", "")

  /** True when a call can reach the body: the window exists and `document.body` does not throw. */
  predicate Reachable(env: Env) {
    env.hasWindow && env.hasBody
  }

  function BlockScroll(env: Env, b: Body): (r: Body)
    // Already blocked, no window, or the body lookup throws: nothing changes.
    ensures b.blocked || !Reachable(env) ==> r == b
    // Otherwise the page is locked and padded by the scroll bar's width.
    ensures !b.blocked && Reachable(env) ==> r.blocked && r.overflowY == "hidden"
    ensures !b.blocked && Reachable(env) && env.scrollBarWidth >= 0 ==>
              r.paddingRight == Decimal(env.scrollBarWidth) + "px"
    // The browser refuses a negative padding and keeps the value it had.
    ensures env.scrollBarWidth < 0 ==> r.paddingRight == b.paddingRight
  {
    if !env.hasWindow || b.blocked then b
    else if !env.hasBody then b
    else Body(true, PaddingAfter(b.paddingRight, Decimal(env.scrollBarWidth) + "px"), "hidden")
  }

  /** The value `style.paddingRight` holds after `written` is assigned to it. The
      CSS Object Model drops a declaration whose value does not parse, and
      `padding-right` takes no negative lengths, so a written "-Npx" leaves the
      old value in place. */
  function PaddingAfter(previous: string, written: string): string {
    if |written| > 0 && written[0] == '-' then previous else written
  }

  function AllowScroll(env: Env, b: Body): (r: Body)
    ensures !b.blocked || !Reachable(env) ==> r == b
    ensures b.blocked && Reachable(env) ==> r == Unlocked
  {
    if !env.hasWindow || !b.blocked then b
    else if !env.hasBody then b
    else Body(false, "", "")
  }

  /** Blocking twice is blocking once. */
  lemma BlockIdempotent(env: Env, b: Body)
    ensures BlockScroll(env, BlockScroll(env, b)) == BlockScroll(env, b)
  {
  }

  /** Allowing twice is allowing once. */
  lemma AllowIdempotent(env: Env, b: Body)
    ensures AllowScroll(env, AllowScroll(env, b)) == AllowScroll(env, b)
  {
  }

  /** Once the body is reachable, the flag reports the last call made. */
  lemma FlagFollowsLastCall(env: Env, b: Body)
    requires Reachable(env)
    ensures BlockScroll(env, b).blocked
    ensures !AllowScroll(env, b).blocked
  {
  }

  /** Locking and then unlocking an unlocked page restores it exactly. */
  lemma AllowUndoesBlock(env: Env, envLater: Env)
    requires Reachable(envLater)
    ensures AllowScroll(envLater, BlockScroll(env, Unlocked)) == Unlocked
  {
  }

  /** The guard is one flag, not a count: two lock requests are released by a single unlock. */
  lemma SingleAllowReleasesTwoBlocks(env: Env)
    requires Reachable(env)
    ensures !AllowScroll(env, BlockScroll(env, BlockScroll(env, Unlocked))).blocked
  {
  }
}

=== FILE: early_lightbox.dfy ===
/**
 The first version of the lightbox (`src/Lightbox.js`): the component owns the
 current image index, seeds it from the `initialImage` prop, steps it with the
 arrow keys and arrow buttons, and on every props update re-seeds it and
 synchronises the window keydown listener and the body's overflow style with
 the `isOpen` prop. Images are plain URLs.
 */
module EarlyLightbox {
  import opened Js

  datatype Props = Props(
    backdropClosesModal: bool,
    enableKeyboardInput: bool,
    initialImage: int,
    height: int,
    images: Option<seq<string>>,
    isOpen: bool,
    supplied: set<Callback>,
    showCloseButton: bool,
    width: int)

  datatype State = State(currentImage: int)

  /** `BODY.style.overflow`: set to 'hidden' while open, reset to null otherwise. */
  datatype Overflow = OverflowUnset | OverflowHidden

  /** The browser globals the component writes to. */
  datatype World = World(listeners: set<Listener>, overflow: Overflow)

  /** A handler's new state, the callbacks it fired, and how it completed. */
  datatype Step = Step(state: State, effects: seq<Effect>, completion: Completion<JsValue>)

  /** The state after a props update together with the updated globals. */
  datatype Update = Update(world: World, state: State)

  predicate InRange(p: Props, s: State) {
    p.images.Some? && 0 <= s.currentImage < |p.images.value|
  }

  // ---------------------------------------------------------------- state

  function InitialState(p: Props): (s: State)
    ensures s.currentImage == p.initialImage
  {
    State(p.initialImage)
  }

  function GotoPrevious(s: State): (r: State)
    ensures s.currentImage == 0 ==> r == s
    ensures s.currentImage != 0 ==> r.currentImage == s.currentImage - 1
  {
    if s.currentImage == 0 then s else State(s.currentImage - 1)
  }

  /** Reading `this.props.images.length` throws when no images were given. */
  function GotoNext(p: Props, s: State): (r: Completion<State>)
    ensures p.images.None? <==> r.TypeError?
    ensures p.images.Some? && s.currentImage == |p.images.value| - 1 ==> r == Normal(s)
    ensures p.images.Some? && s.currentImage != |p.images.value| - 1 ==>
              r == Normal(State(s.currentImage + 1))
  {
    match p.images
    case None => TypeError
    case Some(images) =>
      if s.currentImage == |images| - 1 then Normal(s) else Normal(State(s.currentImage + 1))
  }

  /** From a valid index, both steps keep the index valid. */
  lemma NavigationStaysInRange(p: Props, s: State)
    requires InRange(p, s)
    ensures InRange(p, GotoPrevious(s))
    ensures GotoNext(p, s).Normal? && InRange(p, GotoNext(p, s).value)
  {
  }

  /** Away from the ends, "previous" undoes "next" and "next" undoes "previous". */
  lemma StepsAreInverse(p: Props, s: State)
    requires InRange(p, s)
    ensures s.currentImage < |p.images.value| - 1 ==> GotoPrevious(GotoNext(p, s).value) == s
    ensures s.currentImage > 0 ==> GotoNext(p, GotoPrevious(s)) == Normal(s)
  {
  }

  /** The guards compare with `===`: on an empty list, "next" never stops climbing. */
  lemma NextOnEmptyListClimbs(p: Props, s: State)
    requires p.images == Some([]) && s.currentImage >= 0
    ensures GotoNext(p, s) == Normal(State(s.currentImage + 1))
    ensures !InRange(p, GotoNext(p, s).value)
  {
  }

  // ---------------------------------------------------------------- keyboard

  /** Left and right arrow step the index, Escape calls `onCancel`; a handled key returns
      `undefined`, any other key returns `false`. */
  function HandleKeyboardInput(p: Props, s: State, keyCode: int): (r: Step)
    ensures keyCode == KeyLeft ==> r == Step(GotoPrevious(s), [], Normal(Undefined))
    ensures keyCode == KeyRight ==>
              r == (match GotoNext(p, s)
                    case Normal(s') => Step(s', [], Normal(Undefined))
                    case TypeError => Step(s, [], TypeError))
    ensures keyCode == KeyEscape ==>
              r.state == s && (OnCancel in p.supplied <==> r.completion.Normal?) &&
              r.effects == (if OnCancel in p.supplied then [Fired(OnCancel)] else [])
    ensures keyCode !in {KeyLeft, KeyRight, KeyEscape} ==> r == Step(s, [], Normal(Bool(false)))
    ensures r.completion.TypeError? ==> r.state == s
  {
    if keyCode == KeyLeft then Step(GotoPrevious(s), [], Normal(Undefined))
    else if keyCode == KeyRight then
      (match GotoNext(p, s)
       case Normal(s') => Step(s', [], Normal(Undefined))
       case TypeError => Step(s, [], TypeError))
    else if keyCode == KeyEscape then
      var (effects, completion) := Invoke(p.supplied, OnCancel);
      Step(s, effects, completion)
    else Step(s, [], Normal(Bool(false)))
  }

  /** What a run of key presses leaves behind: the final state, every effect in order, and how
      the handler completed on each key. */
  datatype KeyRun = KeyRun(state: State, effects: seq<Effect>, completions: seq<Completion<JsValue>>)

  /** Feeds key presses to the window keydown listener one after another. A listener that throws
      stays registered, so a throw ends only its own key, leaving the state it started from. */
  function RunKeys(p: Props, s: State, keys: seq<int>): (r: KeyRun)
    ensures |r.completions| == |keys|
    decreases |keys|
  {
    if |keys| == 0 then KeyRun(s, [], [])
    else
      var first := HandleKeyboardInput(p, s, keys[0]);
      var rest := RunKeys(p, first.state, keys[1..]);
      KeyRun(rest.state, first.effects + rest.effects, [first.completion] + rest.completions)
  }

  function CountKey(keys: seq<int>, code: int): nat
    decreases |keys|
  {
    if |keys| == 0 then 0 else (if keys[0] == code then 1 else 0) + CountKey(keys[1..], code)
  }

  /** From a valid index, any key sequence leaves the index valid, whichever callbacks were
      supplied; a key throws exactly when it is Escape and `onCancel` is missing. */
  lemma {:induction false} RunKeysStaysInRange(p: Props, s: State, keys: seq<int>)
    requires InRange(p, s)
    ensures InRange(p, RunKeys(p, s, keys).state)
    ensures forall i :: 0 <= i < |keys| ==>
              (RunKeys(p, s, keys).completions[i].TypeError? <==> keys[i] == KeyEscape && OnCancel !in p.supplied)
    decreases |keys|
  {
    if |keys| > 0 {
      var first := HandleKeyboardInput(p, s, keys[0]);
      NavigationStaysInRange(p, s);
      assert InRange(p, first.state);
      RunKeysStaysInRange(p, first.state, keys[1..]);
      var r := RunKeys(p, s, keys);
      var rest := RunKeys(p, first.state, keys[1..]);
      assert r.completions == [first.completion] + rest.completions;
      forall i | 0 <= i < |keys|
        ensures r.completions[i].TypeError? <==> keys[i] == KeyEscape && OnCancel !in p.supplied
      {
        if i > 0 {
          assert r.completions[i] == rest.completions[i - 1];
          assert keys[i] == keys[1..][i - 1];
        }
      }
    }
  }

  /** Over any key sequence, `onCancel` fires once per Escape when it was supplied and never
      otherwise, and no other effect is emitted. */
  lemma {:induction false} RunKeysFiresCancelPerEscape(p: Props, s: State, keys: seq<int>)
    ensures FiredCount(RunKeys(p, s, keys).effects, OnCancel) ==
              (if OnCancel in p.supplied then CountKey(keys, KeyEscape) else 0)
    ensures |RunKeys(p, s, keys).effects| == (if OnCancel in p.supplied then CountKey(keys, KeyEscape) else 0)
    decreases |keys|
  {
    if |keys| > 0 {
      var first := HandleKeyboardInput(p, s, keys[0]);
      RunKeysFiresCancelPerEscape(p, first.state, keys[1..]);
      var rest := RunKeys(p, first.state, keys[1..]);
      FiredCountAppend(first.effects, rest.effects, OnCancel);
      InvokeFiresOnce(p.supplied, OnCancel, OnCancel);
    }
  }

  /** Without images, "next" throws and leaves the index alone, and the following key is still handled. */
  lemma ThrowDoesNotEndTheRun(p: Props)
    requires p.images.None?
    ensures RunKeys(p, State(2), [KeyRight, KeyLeft]).state == State(1)
    ensures RunKeys(p, State(2), [KeyRight, KeyLeft]).completions == [TypeError, Normal(Undefined)]
  {
    var keys := [KeyRight, KeyLeft];
    assert keys[1..] == [KeyLeft];
    assert keys[1..][1..] == [];
    var first := HandleKeyboardInput(p, State(2), KeyRight);
    assert first == Step(State(2), [], TypeError);
    var second := HandleKeyboardInput(p, State(2), KeyLeft);
    assert second == Step(State(1), [], Normal(Undefined));
    assert RunKeys(p, State(2), [KeyLeft]) == KeyRun(State(1), [], [Normal(Undefined)]);
  }

  // ---------------------------------------------------------------- props update

  /** `componentWillReceiveProps`: re-seed the index from `initialImage` (no range check), attach the
      keydown handler iff open with keyboard input enabled, hide the body overflow iff open. */
  function ReceiveProps(w: World, s: State, next: Props): (r: Update)
    ensures r.state.currentImage == next.initialImage
    ensures KeydownHandler in r.world.listeners <==> next.isOpen && next.enableKeyboardInput
    ensures forall l :: l != KeydownHandler ==> (l in r.world.listeners <==> l in w.listeners)
    ensures r.world.overflow == OverflowHidden <==> next.isOpen
  {
    var listeners :=
      if next.isOpen && next.enableKeyboardInput then w.listeners + {KeydownHandler}
      else w.listeners - {KeydownHandler};
    var overflow := if next.isOpen then OverflowHidden else OverflowUnset;
    Update(World(listeners, overflow), State(next.initialImage))
  }

  /** Every update puts the component back in the state it had on mount with those props. */
  lemma ReceivePropsResetsToInitial(w: World, s: State, next: Props)
    ensures ReceiveProps(w, s, next).state == InitialState(next)
  {
  }

  /** Receiving the same props again changes nothing: no second listener, no second write. */
  lemma ReceivePropsIdempotent(w: World, s: State, next: Props)
    ensures var u := ReceiveProps(w, s, next); ReceiveProps(u.world, u.state, next) == u
  {
  }

  function RunUpdates(w: World, s: State, updates: seq<Props>): Update
    decreases |updates|
  {
    if |updates| == 0 then Update(w, s)
    else
      var u := ReceiveProps(w, s, updates[0]);
      RunUpdates(u.world, u.state, updates[1..])
  }

  /** After any non-empty run of updates, the globals and the index are decided by the last props alone. */
  lemma {:induction false} RunUpdatesFollowsLast(w: World, s: State, updates: seq<Props>)
    requires |updates| > 0
    ensures var last := updates[|updates| - 1];
            var u := RunUpdates(w, s, updates);
            && (KeydownHandler in u.world.listeners <==> last.isOpen && last.enableKeyboardInput)
            && (forall l :: l != KeydownHandler ==> (l in u.world.listeners <==> l in w.listeners))
            && (u.world.overflow == OverflowHidden <==> last.isOpen)
            && u.state == InitialState(last)
    decreases |updates|
  {
    var u := ReceiveProps(w, s, updates[0]);
    if |updates| > 1 {
      RunUpdatesFollowsLast(u.world, u.state, updates[1..]);
    }
  }

  // ---------------------------------------------------------------- rendering decisions

  /** The image element: nothing without images; `Img(None)` is an `<img>` whose `src` is undefined. */
  datatype ImageView = NoImage | Img(src: Option<string>)

  /** The backdrop and close button carry `onCancel` as their click handler when it exists. */
  datatype Backdrop = Backdrop(onClick: Option<Callback>)
  datatype CloseButton = CloseButton(onClick: Option<Callback>)

  datatype Dialog = Dialog(image: ImageView, arrowPrev: bool, arrowNext: bool,
                           closeButton: Option<CloseButton>, width: int, height: int)

  /** What the portal receives: the dialog and the backdrop, each possibly absent. */
  datatype View = View(dialog: Option<Dialog>, backdrop: Option<Backdrop>)

  function RenderImages(p: Props, s: State): (r: ImageView)
    ensures p.images.None? || |p.images.value| == 0 <==> r == NoImage
    ensures InRange(p, s) ==> r == Img(Some(p.images.value[s.currentImage]))
    ensures p.images.Some? && |p.images.value| > 0 && !InRange(p, s) ==> r == Img(None)
  {
    match p.images
    case None => NoImage
    case Some(images) =>
      if |images| == 0 then NoImage
      else if 0 <= s.currentImage < |images| then Img(Some(images[s.currentImage]))
      else Img(None)
  }

  function RenderArrowPrev(s: State): (shown: bool)
    ensures shown <==> s.currentImage != 0
  {
    !(s.currentImage == 0)
  }

  function RenderArrowNext(p: Props, s: State): (r: Completion<bool>)
    ensures p.images.None? <==> r.TypeError?
    ensures p.images.Some? ==> (r.value <==> s.currentImage != |p.images.value| - 1)
  {
    match p.images
    case None => TypeError
    case Some(images) => Normal(!(s.currentImage == |images| - 1))
  }

  /** Each arrow is shown exactly when the step it stands for would move the index. */
  lemma ArrowsMatchSteps(p: Props, s: State)
    ensures RenderArrowPrev(s) <==> GotoPrevious(s) != s
    ensures RenderArrowNext(p, s).TypeError? <==> GotoNext(p, s).TypeError?
    ensures RenderArrowNext(p, s) == Normal(true) <==> GotoNext(p, s).Normal? && GotoNext(p, s).value != s
  {
  }

  function CallbackIfSupplied(p: Props, cb: Callback): (r: Option<Callback>)
    ensures r.Some? <==> cb in p.supplied
    ensures r.Some? ==> r.value == cb
  {
    if cb in p.supplied then Some(cb) else None
  }

  function RenderBackdrop(p: Props): (r: Option<Backdrop>)
    ensures r.Some? <==> p.isOpen
    ensures r.Some? ==> (r.value.onClick.Some? <==> p.backdropClosesModal && OnCancel in p.supplied)
    ensures r.Some? && r.value.onClick.Some? ==> r.value.onClick.value == OnCancel
  {
    if !p.isOpen then None
    else Some(Backdrop(if p.backdropClosesModal then CallbackIfSupplied(p, OnCancel) else None))
  }

  function RenderCloseButton(p: Props): (r: Option<CloseButton>)
    ensures r.Some? <==> p.showCloseButton
    ensures r.Some? ==> (r.value.onClick.Some? <==> OnCancel in p.supplied)
    ensures r.Some? && r.value.onClick.Some? ==> r.value.onClick.value == OnCancel
  {
    if !p.showCloseButton then None else Some(CloseButton(CallbackIfSupplied(p, OnCancel)))
  }

  /** The close button and a closing backdrop do what Escape does: their click calls `onCancel`
      and fires nothing else. Shown without a handler, they stand where Escape would throw. */
  lemma CloseControlsActAsEscape(p: Props, s: State)
    ensures RenderCloseButton(p).Some? && RenderCloseButton(p).value.onClick.Some? ==>
              Invoke(p.supplied, RenderCloseButton(p).value.onClick.value).0 == HandleKeyboardInput(p, s, KeyEscape).effects
    ensures RenderBackdrop(p).Some? && RenderBackdrop(p).value.onClick.Some? ==>
              Invoke(p.supplied, RenderBackdrop(p).value.onClick.value).0 == HandleKeyboardInput(p, s, KeyEscape).effects
    ensures RenderCloseButton(p).Some? && RenderCloseButton(p).value.onClick.None? ==>
              HandleKeyboardInput(p, s, KeyEscape).completion.TypeError?
  {
  }

  /** Children are evaluated in order: images, previous arrow, next arrow, close button. */
  function RenderDialog(p: Props, s: State): (r: Completion<Option<Dialog>>)
    ensures !p.isOpen ==> r == Normal(None)
    ensures p.isOpen ==> (r.TypeError? <==> p.images.None?)
  {
    if !p.isOpen then Normal(None)
    else
      match RenderArrowNext(p, s)
      case TypeError => TypeError
      case Normal(next) =>
        Normal(Some(Dialog(RenderImages(p, s), RenderArrowPrev(s), next,
                           RenderCloseButton(p), p.width, p.height)))
  }

  function Render(p: Props, s: State): (r: Completion<View>)
    ensures r.Normal? ==> (r.value.backdrop.Some? <==> p.isOpen) && (r.value.dialog.Some? <==> p.isOpen)
  {
    match RenderDialog(p, s)
    case TypeError => TypeError
    case Normal(dialog) => Normal(View(dialog, RenderBackdrop(p)))
  }

  /** Closed, the portal receives nothing; open on a valid index, it shows that image with
      the previous arrow exactly off the first image and the next arrow exactly off the last. */
  lemma RenderShowsCurrentImage(p: Props, s: State)
    ensures !p.isOpen ==> Render(p, s) == Normal(View(None, None))
    ensures p.isOpen && InRange(p, s) ==>
              && Render(p, s).Normal?
              && var d := Render(p, s).value.dialog.value;
              && d.image == Img(Some(p.images.value[s.currentImage]))
              && (d.arrowPrev <==> s.currentImage > 0)
              && (d.arrowNext <==> s.currentImage < |p.images.value| - 1)
  {
  }
}

=== FILE: js.dfy ===
/**
 The small slice of the JavaScript host that both lightbox versions touch:
 optional values, the callbacks a caller may supply, the observable effects a
 handler emits, how a handler completes, window listeners and key codes.
 */
module Js {

  datatype Option<+T> = None | Some(value: T) {
    function GetOr(default: T): T {
      match this
      case Some(v) => v
      case None => default
    }
  }

  /** The callback props a caller may supply. Absent ones are simply missing from a props record's `supplied` set. */
  datatype Callback = OnCancel | OnClose | OnClickNext | OnClickPrev | OnClickImage

  /** Observable effects, in the order a handler emits them. */
  datatype Effect =
    | PreventDefault
    | StopPropagation
    | Fired(cb: Callback)

  /** How a handler finished: returning a value, or throwing the TypeError that
      calling an absent callback or reading a property of `undefined` raises. */
  datatype Completion<+T> = Normal(value: T) | TypeError

  /** The two JavaScript values a keyboard handler can return. */
  datatype JsValue = Undefined | Bool(b: bool)

  /** What a window listener is: one of the component's two bound handlers, or anyone else's. */
  datatype Listener = KeydownHandler | ResizeHandler | Foreign(id: nat)

  const KeyLeft: int := 37
  const KeyRight: int := 39
  const KeyEscape: int := 27

  /** Calling `this.props.cb()`: fires the callback when it was supplied, throws otherwise. */
  function Invoke(supplied: set<Callback>, cb: Callback): (r: (seq<Effect>, Completion<JsValue>))
    ensures cb in supplied <==> r.1.Normal?
    ensures cb in supplied ==> r.0 == [Fired(cb)]
    ensures cb !in supplied ==> r.0 == []
  {
    if cb in supplied then ([Fired(cb)], Normal(Undefined)) else ([], TypeError)
  }

  /** Invoking `cb` fires `cb` once when it was supplied, and fires no other callback. */
  lemma InvokeFiresOnce(supplied: set<Callback>, cb: Callback, other: Callback)
    ensures FiredCount(Invoke(supplied, cb).0, other) == (if cb in supplied && cb == other then 1 else 0)
  {
    if cb in supplied {
      assert Invoke(supplied, cb).0[..0] == [];
    }
  }

  /** How many times `cb` was fired in an effect log. */
  function FiredCount(effects: seq<Effect>, cb: Callback): nat
  {
    if |effects| == 0 then 0
    else FiredCount(effects[..|effects| - 1], cb) + (if effects[|effects| - 1] == Fired(cb) then 1 else 0)
  }

  lemma FiredCountAppend(a: seq<Effect>, b: seq<Effect>, cb: Callback)
    ensures FiredCount(a + b, cb) == FiredCount(a, cb) + FiredCount(b, cb)
    decreases |b|
  {
    if |b| == 0 {
      assert a + b == a;
    } else {
      assert (a + b)[..|a + b| - 1] == a + b[..|b| - 1];
      FiredCountAppend(a, b[..|b| - 1], cb);
    }
  }
}

=== FILE: lifecycle.dfy ===
/**
 The bundled lightbox over the whole life of one instance: mounted with a zero
 window height, driven by any sequence of props updates, and possibly
 unmounted, after which it receives nothing more. Two runs are given:
 `RunAsWritten`, with the props update of the bundle and its missing unmount
 hook, and `Run`, with the corrected update and unmount of `Lightbox`. For
 each, the globals the instance touches (its two window handlers and the body
 scroll lock) are shown to track the last event it received.
 */
module Lifecycle {
  import opened Js
  import BodyScroll
  import opened Lightbox
  import LightboxRender

  /** A props update, or the instance unmounting. Nothing is delivered to an instance after it
      unmounts, so a run ends at its first `Unmounted`. */
  datatype Event = Receive(props: Props) | Unmounted

  /** The constructor's state: `{ windowHeight: 0 }`. */
  const Mounted: State := State(0)

  /** The last event the instance receives: its first `Unmounted`, or else the last event. */
  function LastDelivered(events: seq<Event>): (e: Event)
    requires |events| > 0
    ensures (forall i :: 0 <= i < |events| ==> events[i].Receive?) ==> e == events[|events| - 1]
    ensures e.Unmounted? <==> exists i :: 0 <= i < |events| && events[i].Unmounted?
    decreases |events|
  {
    if events[0].Unmounted? || |events| == 1 then events[0] else LastDelivered(events[1..])
  }

  /** Applies the events in order up to the first unmount, with the corrected props update and
      unmount of `Lightbox` (`ReceivePropsIntended`, `Unmount`). */
  function Run(w: World, s: State, events: seq<Event>): (r: Update)
    ensures r.world.canUseDom == w.canUseDom && r.world.env == w.env
    decreases |events|
  {
    if |events| == 0 then Update(w, s)
    else match events[0]
      case Unmounted => Update(Unmount(w), s)
      case Receive(p) =>
        var u := ReceivePropsIntended(w, s, p);
        Run(u.world, u.state, events[1..])
  }

  /** Applies the events in order up to the first unmount as the bundle does:
      `componentWillReceiveProps` as written, and an unmount that releases nothing. */
  function RunAsWritten(w: World, s: State, events: seq<Event>): (r: Update)
    ensures r.world.canUseDom == w.canUseDom && r.world.env == w.env
    decreases |events|
  {
    if |events| == 0 then Update(w, s)
    else match events[0]
      case Unmounted => Update(UnmountAsWritten(w), s)
      case Receive(p) =>
        var u := ReceiveProps(w, s, p);
        RunAsWritten(u.world, u.state, events[1..])
  }

  /** The props of the last `Receive` the instance gets before it unmounts, if there is one. */
  function LastReceived(events: seq<Event>): (r: Option<Props>)
    ensures r.None? <==> |events| == 0 || events[0].Unmounted?
    decreases |events|
  {
    if |events| == 0 then None
    else match events[0]
      case Unmounted => None
      case Receive(p) =>
        var later := LastReceived(events[1..]);
        if later.Some? then later else Some(p)
  }

  /** What the globals look like, as written, once `p` was the last props received: both handlers
      follow `isOpen && enableKeyboardInput`, the lock follows `isOpen`, and an unmount after it
      released nothing. */
  ghost predicate SettledAsWritten(w: World, p: Props, before: World)
  {
    && (forall l :: OwnListener(l) ==> (l in w.listeners <==> p.isOpen && p.enableKeyboardInput))
    && (forall l :: !OwnListener(l) ==> (l in w.listeners <==> l in before.listeners))
    && (BodyScroll.Reachable(w.env) ==> (w.body.blocked <==> p.isOpen))
  }

  /** As written, with a DOM, after any run that received props the handlers and the lock agree
      with the last props received, whether or not the instance then unmounted, and nobody else's
      listeners were touched. */
  lemma {:induction false} RunAsWrittenSettles(w: World, s: State, events: seq<Event>)
    requires w.canUseDom
    requires LastReceived(events).Some?
    ensures SettledAsWritten(RunAsWritten(w, s, events).world, LastReceived(events).value, w)
    decreases |events|
  {
    var u := ReceiveProps(w, s, events[0].props);
    assert RunAsWritten(w, s, events) == RunAsWritten(u.world, u.state, events[1..]);
    if LastReceived(events[1..]).Some? {
      RunAsWrittenSettles(u.world, u.state, events[1..]);
    } else {
      assert RunAsWritten(u.world, u.state, events[1..]).world == u.world;
    }
  }

  /** As written, an instance unmounted while open ends its life with both handlers attached and the
      page locked; since nothing reaches it afterwards, nothing it does can release them. */
  lemma UnmountAsWrittenLeaks(w: World, s: State, p: Props, rest: seq<Event>)
    requires w.canUseDom && BodyScroll.Reachable(w.env)
    requires p.isOpen && p.enableKeyboardInput
    ensures var r := RunAsWritten(w, s, [Receive(p), Unmounted] + rest).world;
            KeydownHandler in r.listeners && ResizeHandler in r.listeners && r.body.blocked
  {
    var events := [Receive(p), Unmounted] + rest;
    assert events[1..][0] == Unmounted;
    assert LastReceived(events) == Some(p);
    RunAsWrittenSettles(w, s, events);
  }

  /** What the globals should look like once `last` was the last event the instance received. */
  ghost predicate Settled(w: World, last: Event, before: World)
  {
    && (forall l :: !OwnListener(l) ==> (l in w.listeners <==> l in before.listeners))
    && match last
       case Receive(p) =>
         && (KeydownHandler in w.listeners <==> p.isOpen && p.enableKeyboardInput)
         && (ResizeHandler in w.listeners <==> p.isOpen)
         && (BodyScroll.Reachable(w.env) ==> (w.body.blocked <==> p.isOpen))
       case Unmounted =>
         && (forall l :: OwnListener(l) ==> l !in w.listeners)
         && (BodyScroll.Reachable(w.env) ==> !w.body.blocked)
  }

  /** With a DOM, after any non-empty run the handlers and the scroll lock agree with the last
      event the instance received, and nobody else's listeners were touched. */
  lemma {:induction false} RunSettles(w: World, s: State, events: seq<Event>)
    requires w.canUseDom
    requires |events| > 0
    ensures Settled(Run(w, s, events).world, LastDelivered(events), w)
    decreases |events|
  {
    if events[0].Receive? {
      var u := ReceivePropsIntended(w, s, events[0].props);
      if |events| == 1 {
        assert Run(u.world, u.state, events[1..]) == u;
      } else {
        RunSettles(u.world, u.state, events[1..]);
      }
    }
  }

  /** Without a DOM, nothing a run does reaches the globals. */
  lemma {:induction false} RunWithoutDomIsInert(w: World, s: State, events: seq<Event>)
    requires !w.canUseDom
    ensures Run(w, s, events).world == w
    decreases |events|
  {
    if |events| > 0 && events[0].Receive? {
      RunWithoutDomIsInert(w, s, events[1..]);
    }
  }

  /** Open, close, open, close, as written: no handler of ours is left and the page scrolls again. */
  lemma OpenCloseTwiceLeavesNothingAsWritten(w: World, openProps: Props, closedProps: Props)
    requires w.canUseDom && BodyScroll.Reachable(w.env)
    requires openProps.isOpen && openProps.enableKeyboardInput && !closedProps.isOpen
    ensures var r := RunAsWritten(w, Mounted, [Receive(openProps), Receive(closedProps), Receive(openProps), Receive(closedProps)]).world;
            KeydownHandler !in r.listeners && ResizeHandler !in r.listeners && !r.body.blocked
  {
    var events := [Receive(openProps), Receive(closedProps), Receive(openProps), Receive(closedProps)];
    var t1, t2, t3 := events[1..], events[2..], events[3..];
    assert t3 == [Receive(closedProps)] && t3[1..] == [];
    assert LastReceived(t3) == Some(closedProps);
    assert t2 == [Receive(openProps)] + t3 && t2[1..] == t3;
    assert LastReceived(t2) == Some(closedProps);
    assert t1 == [Receive(closedProps)] + t2 && t1[1..] == t2;
    assert LastReceived(t1) == Some(closedProps);
    assert events[1..] == t1;
    RunAsWrittenSettles(w, Mounted, events);
  }

  /** Open, close, open, close, with the corrected update: no handler of ours is left and the page scrolls again. */
  lemma OpenCloseTwiceLeavesNothing(w: World, openProps: Props, closedProps: Props)
    requires w.canUseDom && BodyScroll.Reachable(w.env)
    requires openProps.isOpen && openProps.enableKeyboardInput && !closedProps.isOpen
    ensures var r := Run(w, Mounted, [Receive(openProps), Receive(closedProps), Receive(openProps), Receive(closedProps)]).world;
            KeydownHandler !in r.listeners && ResizeHandler !in r.listeners && !r.body.blocked
  {
    RunSettles(w, Mounted, [Receive(openProps), Receive(closedProps), Receive(openProps), Receive(closedProps)]);
  }

  /** As written, opening with keyboard input disabled never reads the window height, so the image
      is rendered with a maximum height of 0 however tall the window is. */
  lemma KeyboardOffCollapsesImage(w: World, p: Props, height: int)
    requires w.canUseDom && w.innerHeight == Some(height) && height > 0
    requires p.isOpen && !p.enableKeyboardInput && LightboxRender.ValidIndex(p)
    ensures var figure := LightboxRender.RenderImages(p, ReceiveProps(w, Mounted, p).state);
            figure.Normal? && figure.value.Some? && figure.value.value.maxHeight == 0
  {
  }

  /** With the corrected update, an open lightbox sizes its image by the window height,
      keyboard input or not. */
  lemma OpenSizesImage(w: World, s: State, p: Props)
    requires w.canUseDom && p.isOpen && LightboxRender.ValidIndex(p)
    ensures var figure := LightboxRender.RenderImages(p, ReceivePropsIntended(w, s, p).state);
            figure.Normal? && figure.value.Some? &&
            figure.value.value.maxHeight == (if w.innerHeight.Some? then w.innerHeight.value else 0)
  {
  }
}

=== FILE: lightbox.dfy ===
/**
 The later, bundled lightbox (module 3 of `examples/dist/standalone.js`). The
 current index is now a prop owned by the caller: navigation does not move it
 but asks the caller to, through `onClickNext` / `onClickPrev`. On a props
 update the component attaches or detaches its keydown and resize handlers
 and locks or unlocks body scrolling through `BodyScroll`.
 */
module Lightbox {
  import opened Js
  import BodyScroll

  /** One gallery entry: its URL, optional responsive variants, optional caption. */
  datatype Image = Image(src: string, srcset: Option<seq<string>>, caption: Option<string>)

  datatype Props = Props(
    backdropClosesModal: bool,
    currentImage: int,
    customControls: bool,
    enableKeyboardInput: bool,
    imageCountSeparator: string,
    images: Option<seq<Image>>,
    isOpen: bool,
    supplied: set<Callback>,
    showCloseButton: bool,
    showImageCount: bool,
    width: int)

  /** The component's only own state: the window height last read by `handleResize`. */
  datatype State = State(windowHeight: int)

  /** The id the dialog container carries; only clicks aimed at it close the lightbox. */
  const ContainerId: string := "react-images-container"

  /** Props with the component's declared defaults for everything the caller left out;
      `backdropClosesModal` has no default and so reads as false. */
  function WithDefaults(images: Option<seq<Image>>, isOpen: bool, supplied: set<Callback>): (p: Props)
    ensures p.images == images && p.isOpen == isOpen && p.supplied == supplied
    ensures p.currentImage == 0 && p.enableKeyboardInput && p.imageCountSeparator == " of "
    ensures p.showCloseButton && p.showImageCount && p.width == 900
    ensures !p.backdropClosesModal && !p.customControls
  {
    Props(false, 0, false, true, " of ", images, isOpen, supplied, true, true, 900)
  }

  /** A handler's callbacks fired, and what it returned. */
  datatype Reaction = Reaction(effects: seq<Effect>, completion: Completion<JsValue>)

  // ---------------------------------------------------------------- handlers

  /** A click on the dialog: closes only if aimed at the container itself, the backdrop is
      allowed to close the modal, and `onClose` was supplied. */
  function Close(p: Props, targetId: string): (r: seq<Effect>)
    ensures r == [Fired(OnClose)] <==> targetId == ContainerId && p.backdropClosesModal && OnClose in p.supplied
    ensures r == [] || r == [Fired(OnClose)]
  {
    if targetId != ContainerId then []
    else if p.backdropClosesModal && OnClose in p.supplied then [Fired(OnClose)]
    else []
  }

  /** `event.preventDefault(); event.stopPropagation();` when there is an event to cancel. */
  function Cancelled(hasEvent: bool): seq<Effect> {
    if hasEvent then [PreventDefault, StopPropagation] else []
  }

  /** Cancels the triggering event, when there is one, and then calls `cb`: the event is cancelled
      before the call, and `cb` is the only callback fired. */
  function Request(p: Props, hasEvent: bool, cb: Callback): (r: Reaction)
    ensures r.completion.Normal? <==> cb in p.supplied
    ensures r.effects == Cancelled(hasEvent) + (if cb in p.supplied then [Fired(cb)] else [])
  {
    var (fired, completion) := Invoke(p.supplied, cb);
    Reaction(Cancelled(hasEvent) + fired, completion)
  }

  /** Cancelling the triggering event fires no callback. */
  lemma CancelFiresNothing(hasEvent: bool, cb: Callback)
    ensures FiredCount(Cancelled(hasEvent), cb) == 0
  {
    var cancel := Cancelled(hasEvent);
    if hasEvent {
      assert cancel[..1] == [PreventDefault];
      assert cancel[..1][..0] == [];
      assert FiredCount(cancel[..1], cb) == 0;
    }
  }

  /** A request fires the requested callback once when it was supplied, and no other callback. */
  lemma RequestFiresOnly(p: Props, hasEvent: bool, cb: Callback, other: Callback)
    ensures FiredCount(Request(p, hasEvent, cb).effects, other) == (if cb == other && cb in p.supplied then 1 else 0)
  {
    CancelFiresNothing(hasEvent, other);
    InvokeFiresOnce(p.supplied, cb, other);
    FiredCountAppend(Cancelled(hasEvent), Invoke(p.supplied, cb).0, other);
  }

  /** On the last image nothing happens; elsewhere the event is cancelled and `onClickNext` is called.
      The index itself is never touched (there is no state to touch). */
  function GotoNext(p: Props, hasEvent: bool): (r: Reaction)
    ensures p.images.None? ==> r == Reaction([], TypeError)
    ensures p.images.Some? && p.currentImage == |p.images.value| - 1 ==> r == Reaction([], Normal(Undefined))
    ensures p.images.Some? && p.currentImage != |p.images.value| - 1 ==>
              && r.effects == Cancelled(hasEvent) + (if OnClickNext in p.supplied then [Fired(OnClickNext)] else [])
              && (r.completion.Normal? <==> OnClickNext in p.supplied)
  {
    match p.images
    case None => Reaction([], TypeError)
    case Some(images) =>
      if p.currentImage == |images| - 1 then Reaction([], Normal(Undefined))
      else Request(p, hasEvent, OnClickNext)
  }

  /** On the first image nothing happens; elsewhere the event is cancelled and `onClickPrev` is called.
      The images are never read. */
  function GotoPrev(p: Props, hasEvent: bool): (r: Reaction)
    ensures p.currentImage == 0 ==> r == Reaction([], Normal(Undefined))
    ensures p.currentImage != 0 ==>
              && r.effects == Cancelled(hasEvent) + (if OnClickPrev in p.supplied then [Fired(OnClickPrev)] else [])
              && (r.completion.Normal? <==> OnClickPrev in p.supplied)
  {
    if p.currentImage == 0 then Reaction([], Normal(Undefined))
    else Request(p, hasEvent, OnClickPrev)
  }

  /** Away from its end, each step asks for its own move exactly once (when supplied), and
      neither step ever asks for the other's move. */
  lemma StepsFireOwnCallbackOnce(p: Props, hasEvent: bool)
    ensures p.images.Some? && p.currentImage != |p.images.value| - 1 ==>
              FiredCount(GotoNext(p, hasEvent).effects, OnClickNext) == (if OnClickNext in p.supplied then 1 else 0)
    ensures p.currentImage != 0 ==>
              FiredCount(GotoPrev(p, hasEvent).effects, OnClickPrev) == (if OnClickPrev in p.supplied then 1 else 0)
    ensures FiredCount(GotoNext(p, hasEvent).effects, OnClickPrev) == 0
    ensures FiredCount(GotoPrev(p, hasEvent).effects, OnClickNext) == 0
  {
    if p.images.Some? && p.currentImage != |p.images.value| - 1 {
      assert GotoNext(p, hasEvent) == Request(p, hasEvent, OnClickNext);
      RequestFiresOnly(p, hasEvent, OnClickNext, OnClickNext);
      RequestFiresOnly(p, hasEvent, OnClickNext, OnClickPrev);
    }
    if p.currentImage != 0 {
      assert GotoPrev(p, hasEvent) == Request(p, hasEvent, OnClickPrev);
      RequestFiresOnly(p, hasEvent, OnClickPrev, OnClickPrev);
      RequestFiresOnly(p, hasEvent, OnClickPrev, OnClickNext);
    }
  }

  function HandleImageClick(p: Props): (r: seq<Effect>)
    ensures r == (if OnClickImage in p.supplied then [Fired(OnClickImage)] else [])
  {
    if OnClickImage !in p.supplied then [] else [Fired(OnClickImage)]
  }

  /** Left and right arrow navigate (cancelling the key event), Escape calls `onClose`; those three
      return true unless the callback they need is missing, any other key returns false and fires nothing. */
  function HandleKeyboardInput(p: Props, keyCode: int): (r: Reaction)
    ensures keyCode == KeyLeft ==> r.effects == GotoPrev(p, true).effects
    ensures keyCode == KeyRight ==> r.effects == GotoNext(p, true).effects
    ensures keyCode == KeyEscape ==>
              r.effects == (if OnClose in p.supplied then [Fired(OnClose)] else [])
    ensures keyCode == KeyLeft ==>
              (r.completion.Normal? <==> p.currentImage == 0 || OnClickPrev in p.supplied)
    ensures keyCode == KeyRight ==>
              (r.completion.Normal? <==>
                 p.images.Some? && (p.currentImage == |p.images.value| - 1 || OnClickNext in p.supplied))
    ensures keyCode == KeyEscape ==> (r.completion.Normal? <==> OnClose in p.supplied)
    ensures keyCode in {KeyLeft, KeyRight, KeyEscape} && r.completion.Normal? ==> r.completion.value == Bool(true)
    ensures keyCode !in {KeyLeft, KeyRight, KeyEscape} ==> r == Reaction([], Normal(Bool(false)))
  {
    if keyCode == KeyLeft then Returning(GotoPrev(p, true), true)
    else if keyCode == KeyRight then Returning(GotoNext(p, true), true)
    else if keyCode == KeyEscape then
      var (effects, completion) := Invoke(p.supplied, OnClose);
      Returning(Reaction(effects, completion), true)
    else Reaction([], Normal(Bool(false)))
  }

  /** `f(); return b;`: keep what `f` emitted, and return `b` unless `f` threw. */
  function Returning(inner: Reaction, b: bool): (r: Reaction)
    ensures r.effects == inner.effects
    ensures r.completion.TypeError? <==> inner.completion.TypeError?
    ensures r.completion.Normal? ==> r.completion.value == Bool(b)
  {
    Reaction(inner.effects, if inner.completion.TypeError? then TypeError else Normal(Bool(b)))
  }

  /** Exactly the three navigation keys are reported handled, whenever nothing throws. */
  lemma KeyHandledIff(p: Props, keyCode: int)
    requires HandleKeyboardInput(p, keyCode).completion.Normal?
    ensures HandleKeyboardInput(p, keyCode).completion.value == Bool(true)
        <==> keyCode in {KeyLeft, KeyRight, KeyEscape}
  {
  }

  /** With all callbacks supplied, Escape fires `onClose` exactly once and nothing else. */
  lemma EscapeClosesOnce(p: Props)
    requires OnClose in p.supplied
    ensures HandleKeyboardInput(p, KeyEscape) == Reaction([Fired(OnClose)], Normal(Bool(true)))
  {
  }

  /** From a valid index, the only moves the component ever asks for land on a valid index. */
  lemma RequestsStayInRange(p: Props, keyCode: int)
    requires p.images.Some? && 0 <= p.currentImage < |p.images.value|
    ensures FiredCount(HandleKeyboardInput(p, keyCode).effects, OnClickNext) > 0 ==>
              p.currentImage + 1 < |p.images.value|
    ensures FiredCount(HandleKeyboardInput(p, keyCode).effects, OnClickPrev) > 0 ==>
              0 <= p.currentImage - 1
  {
    var r := HandleKeyboardInput(p, keyCode);
    StepsFireOwnCallbackOnce(p, true);
    if keyCode == KeyEscape {
      if OnClose in p.supplied {
        assert r.effects[..0] == [];
        assert FiredCount(r.effects, OnClickNext) == 0;
        assert FiredCount(r.effects, OnClickPrev) == 0;
      }
    }
  }

  /** With the defaults, backdrop clicks never close the lightbox. */
  lemma DefaultBackdropDoesNotClose(images: Option<seq<Image>>, isOpen: bool, supplied: set<Callback>, targetId: string)
    ensures Close(WithDefaults(images, isOpen, supplied), targetId) == []
  {
  }

  // ---------------------------------------------------------------- props update and globals

  /** The browser globals the component reads and writes. `innerHeight` is `window.innerHeight`,
      possibly undefined. */
  datatype World = World(
    canUseDom: bool,
    env: BodyScroll.Env,
    innerHeight: Option<int>,
    listeners: set<Listener>,
    body: BodyScroll.Body)

  datatype Update = Update(world: World, state: State)

  predicate OwnListener(l: Listener) {
    l == KeydownHandler || l == ResizeHandler
  }

  /** `handleResize`: remember `window.innerHeight || 0`. */
  function HandleResize(w: World): (s: State)
    ensures s.windowHeight == (if w.innerHeight.Some? then w.innerHeight.value else 0)
  {
    State(w.innerHeight.GetOr(0))
  }

  /** `componentWillReceiveProps`: without a DOM nothing happens; otherwise both handlers are attached
      (and the window height read) iff open with keyboard input enabled, and scrolling is blocked iff open. */
  function ReceiveProps(w: World, s: State, next: Props): (r: Update)
    ensures !w.canUseDom ==> r == Update(w, s)
    ensures w.canUseDom ==>
              && (forall l :: OwnListener(l) ==> (l in r.world.listeners <==> next.isOpen && next.enableKeyboardInput))
              && (forall l :: !OwnListener(l) ==> (l in r.world.listeners <==> l in w.listeners))
              && (next.isOpen && next.enableKeyboardInput ==> r.state == HandleResize(w))
              && (!(next.isOpen && next.enableKeyboardInput) ==> r.state == s)
              && (BodyScroll.Reachable(w.env) ==> (r.world.body.blocked <==> next.isOpen))
              && r.world.canUseDom && r.world.env == w.env && r.world.innerHeight == w.innerHeight
  {
    if !w.canUseDom then Update(w, s)
    else
      var attach := next.isOpen && next.enableKeyboardInput;
      var listeners :=
        if attach then w.listeners + {KeydownHandler, ResizeHandler}
        else w.listeners - {KeydownHandler, ResizeHandler};
      var state := if attach then HandleResize(w) else s;
      var body :=
        if next.isOpen then BodyScroll.BlockScroll(w.env, w.body)
        else BodyScroll.AllowScroll(w.env, w.body);
      Update(w.(listeners := listeners, body := body), state)
  }

  /** The props update as evidently intended: the keydown handler follows `isOpen && enableKeyboardInput`
      as before, but the resize handler and the window-height read follow `isOpen` alone, so that the
      image is sized whether or not keyboard input is enabled. */
  function ReceivePropsIntended(w: World, s: State, next: Props): (r: Update)
    ensures !w.canUseDom ==> r == Update(w, s)
    ensures w.canUseDom ==>
              && (KeydownHandler in r.world.listeners <==> next.isOpen && next.enableKeyboardInput)
              && (ResizeHandler in r.world.listeners <==> next.isOpen)
              && (forall l :: !OwnListener(l) ==> (l in r.world.listeners <==> l in w.listeners))
              && (next.isOpen ==> r.state == HandleResize(w))
              && (!next.isOpen ==> r.state == s)
              && (BodyScroll.Reachable(w.env) ==> (r.world.body.blocked <==> next.isOpen))
              && r.world.canUseDom && r.world.env == w.env && r.world.innerHeight == w.innerHeight
  {
    if !w.canUseDom then Update(w, s)
    else
      var keyboard := if next.isOpen && next.enableKeyboardInput then w.listeners + {KeydownHandler}
                      else w.listeners - {KeydownHandler};
      var listeners := if next.isOpen then keyboard + {ResizeHandler} else keyboard - {ResizeHandler};
      var state := if next.isOpen then HandleResize(w) else s;
      var body :=
        if next.isOpen then BodyScroll.BlockScroll(w.env, w.body)
        else BodyScroll.AllowScroll(w.env, w.body);
      Update(w.(listeners := listeners, body := body), state)
  }

  /** Receiving the same props twice is receiving them once: no duplicate handler, no second lock. */
  lemma ReceivePropsIdempotent(w: World, s: State, next: Props)
    ensures var u := ReceiveProps(w, s, next); ReceiveProps(u.world, u.state, next) == u
  {
    var u := ReceiveProps(w, s, next);
    if w.canUseDom {
      BodyScroll.BlockIdempotent(w.env, w.body);
      BodyScroll.AllowIdempotent(w.env, w.body);
    }
  }

  /** Unmounting, as written: the component defines no `componentWillUnmount`, so the globals stay as they are. */
  function UnmountAsWritten(w: World): (r: World)
    ensures r.listeners == w.listeners && r.body == w.body
  {
    w
  }

  /** Opening and then unmounting leaves both handlers attached and the page locked. */
  lemma UnmountWhileOpenLeaks(w: World, s: State, p: Props)
    requires w.canUseDom && BodyScroll.Reachable(w.env)
    requires p.isOpen && p.enableKeyboardInput
    ensures var after := UnmountAsWritten(ReceiveProps(w, s, p).world);
            KeydownHandler in after.listeners && ResizeHandler in after.listeners && after.body.blocked
  {
  }

  /** Unmounting as intended: with a DOM, detach both handlers and release the scroll lock,
      touching nothing else; without one, do nothing, as a props update does. */
  function Unmount(w: World): (r: World)
    ensures !w.canUseDom ==> r == w
    ensures w.canUseDom ==> forall l :: OwnListener(l) ==> l !in r.listeners
    ensures forall l :: !OwnListener(l) ==> (l in r.listeners <==> l in w.listeners)
    ensures w.canUseDom && BodyScroll.Reachable(w.env) ==> !r.body.blocked
    ensures !w.body.blocked ==> r.body == w.body
  {
    if !w.canUseDom then w
    else w.(listeners := w.listeners - {KeydownHandler, ResizeHandler},
            body := BodyScroll.AllowScroll(w.env, w.body))
  }
}

=== FILE: lightbox_render.dfy ===
/**
 What the bundled lightbox decides when it renders (not the element trees
 themselves): whether each arrow appears, which image is shown with which
 responsive sources, whether a footer appears and what its count reads.
 */
module LightboxRender {
  import opened Js
  import opened NumberText
  import opened Lightbox

  /** JavaScript truthiness of an optional string: absent and empty are both falsy. */
  predicate Truthy(s: Option<string>) {
    s.Some? && s.value != ""
  }

  // ---------------------------------------------------------------- srcset

  /** `array.join()`: the entries separated by commas; an empty array gives "". */
  function JoinComma(xs: seq<string>): (r: string)
    ensures |xs| == 0 ==> r == ""
    ensures |xs| > 0 ==> xs[0] <= r
    ensures |xs| > 0 ==> |r| == TotalLength(xs) + |xs| - 1
    decreases |xs|
  {
    if |xs| == 0 then ""
    else if |xs| == 1 then xs[0]
    else xs[0] + "," + JoinComma(xs[1..])
  }

  /** The summed length of the entries. */
  function TotalLength(xs: seq<string>): nat
    decreases |xs|
  {
    if |xs| == 0 then 0 else |xs[0]| + TotalLength(xs[1..])
  }

  /** `string.split(',')`, the partner of `JoinComma`: always at least one piece. */
  function SplitComma(s: string): (pieces: seq<string>)
    ensures |pieces| > 0
    decreases |s|
  {
    if |s| == 0 then [""]
    else
      var rest := SplitComma(s[1..]);
      if s[0] == ',' then [""] + rest else [[s[0]] + rest[0]] + rest[1..]
  }

  predicate NoComma(s: string) {
    forall i :: 0 <= i < |s| ==> s[i] != ','
  }

  lemma {:induction false} SplitCommaFree(a: string, tail: seq<string>, b: string)
    requires NoComma(a)
    requires SplitComma(b) == tail
    ensures SplitComma(a + b) == [a + tail[0]] + tail[1..]
    decreases |a|
  {
    if |a| > 0 {
      assert (a + b)[1..] == a[1..] + b;
      SplitCommaFree(a[1..], tail, b);
      assert [a[0]] + (a[1..] + tail[0]) == a + tail[0];
    } else {
      assert a + b == b;
      assert a + tail[0] == tail[0];
      assert [tail[0]] + tail[1..] == tail;
    }
  }

  /** Joining comma-free entries and splitting the result gives the entries back. */
  lemma {:induction false} SrcsetRoundTrip(xs: seq<string>)
    requires |xs| > 0
    requires forall i :: 0 <= i < |xs| ==> NoComma(xs[i])
    ensures SplitComma(JoinComma(xs)) == xs
    decreases |xs|
  {
    if |xs| == 1 {
      assert SplitComma("") == [""];
      SplitCommaFree(xs[0], [""], "");
      assert xs[0] + "" == xs[0];
      assert [xs[0]] + [""][1..] == xs;
    } else {
      var tail := JoinComma(xs[1..]);
      SrcsetRoundTrip(xs[1..]);
      assert ("," + tail)[1..] == tail;
      assert SplitComma("," + tail) == [""] + xs[1..];
      assert xs[0] + "," + tail == xs[0] + ("," + tail);
      var pieces := [""] + xs[1..];
      SplitCommaFree(xs[0], pieces, "," + tail);
      assert pieces[0] == "" && pieces[1..] == xs[1..];
      assert xs[0] + "" == xs[0];
      assert [xs[0]] + xs[1..] == xs;
    }
  }

  /** The `srcSet` and `sizes` attributes: both set iff the image has a srcset (an empty array is truthy). */
  function ResponsiveSources(image: Image): (r: (Option<string>, Option<string>))
    ensures r.0.Some? <==> image.srcset.Some?
    ensures r.1.Some? <==> image.srcset.Some?
    ensures r.1.Some? ==> r.1.value == "100vw"
    ensures image.srcset.Some? ==> r.0.value == JoinComma(image.srcset.value)
  {
    match image.srcset
    case None => (None, None)
    case Some(variants) => (Some(JoinComma(variants)), Some("100vw"))
  }

  /** The candidate string lists exactly the image's variants, in order, when they are comma-free URLs. */
  lemma CandidateStringListsVariants(image: Image)
    requires image.srcset.Some? && |image.srcset.value| > 0
    requires forall i :: 0 <= i < |image.srcset.value| ==> NoComma(image.srcset.value[i])
    ensures SplitComma(ResponsiveSources(image).0.value) == image.srcset.value
  {
    SrcsetRoundTrip(image.srcset.value);
  }

  // ---------------------------------------------------------------- footer

  /** The count as it reads on screen: the 1-based position, the separator, the total. */
  function CountText(currentImage: int, separator: string, total: int): (r: string)
    ensures |r| == |Decimal(currentImage + 1)| + |separator| + |Decimal(total)|
    ensures Decimal(currentImage + 1) <= r
    ensures separator <= r[|Decimal(currentImage + 1)|..]
    ensures Decimal(total) <= r[|r| - |Decimal(total)|..]
  {
    Decimal(currentImage + 1) + (separator + Decimal(total))
  }

  /** Reads a count back, given the separator it was written with. */
  function ParseCount(text: string, separator: string): Option<(int, int)>
  {
    var k := NumberPrefixLength(text);
    var rest := text[k..];
    if |separator| <= |rest| && rest[..|separator|] == separator then
      match (ParseDecimal(text[..k]), ParseDecimal(rest[|separator|..]))
      case (Some(position), Some(total)) => Some((position, total))
      case _ => None
    else None
  }

  /** A separator that does not start with a digit keeps the count readable: the position and
      the total can be read back from the text. The default " of " is such a separator. */
  lemma CountTextRoundTrip(currentImage: int, separator: string, total: int)
    requires |separator| > 0 && !IsDigit(separator[0])
    ensures ParseCount(CountText(currentImage, separator, total), separator) == Some((currentImage + 1, total))
  {
    var head := Decimal(currentImage + 1);
    var text := CountText(currentImage, separator, total);
    assert text == head + (separator + Decimal(total));
    NumberPrefixOfDecimal(currentImage + 1, separator + Decimal(total));
    var k := NumberPrefixLength(text);
    assert text[..k] == head;
    assert text[k..] == separator + Decimal(total);
    assert text[k..][|separator|..] == Decimal(total);
    DecimalRoundTrip(currentImage + 1);
    DecimalRoundTrip(total);
  }

  datatype Footer = Footer(count: Option<string>, caption: Option<string>)

  /** No footer when there is neither a caption nor a count to show; otherwise the count when
      `showImageCount` is set and the caption when it is truthy. */
  function RenderFooter(p: Props, caption: Option<string>): (r: Option<Footer>)
    requires p.images.Some?
    ensures r.None? <==> !Truthy(caption) && !p.showImageCount
    ensures r.Some? ==> (r.value.count.Some? <==> p.showImageCount)
    ensures r.Some? && p.showImageCount ==>
              r.value.count.value == CountText(p.currentImage, p.imageCountSeparator, |p.images.value|)
    ensures r.Some? ==> (r.value.caption.Some? <==> Truthy(caption))
    ensures r.Some? && Truthy(caption) ==> r.value.caption == caption
  {
    if !Truthy(caption) && !p.showImageCount then None
    else
      var count :=
        if p.showImageCount then Some(CountText(p.currentImage, p.imageCountSeparator, |p.images.value|))
        else None;
      Some(Footer(count, if Truthy(caption) then caption else None))
  }

  // ---------------------------------------------------------------- image, arrows, dialog

  /** The rendered figure: the image's sources, whether it is clickable (pointer cursor), its
      maximum height (the last window height read) and width, and the footer. */
  datatype Figure = Figure(src: string, srcSet: Option<string>, sizes: Option<string>,
                           clickable: bool, maxHeight: int, maxWidth: int, footer: Option<Footer>)

  predicate ValidIndex(p: Props) {
    p.images.Some? && 0 <= p.currentImage < |p.images.value|
  }

  /** Nothing without images; an index off the list throws (reading `srcset` of undefined). */
  function RenderImages(p: Props, s: State): (r: Completion<Option<Figure>>)
    ensures p.images.None? || |p.images.value| == 0 ==> r == Normal(None)
    ensures p.images.Some? && |p.images.value| > 0 ==> (r.TypeError? <==> !ValidIndex(p))
    ensures ValidIndex(p) ==>
              && r.Normal? && r.value.Some?
              && r.value.value.src == p.images.value[p.currentImage].src
              && r.value.value.footer == RenderFooter(p, p.images.value[p.currentImage].caption)
              && (r.value.value.srcSet, r.value.value.sizes) == ResponsiveSources(p.images.value[p.currentImage])
              && (r.value.value.clickable <==> OnClickImage in p.supplied)
              && r.value.value.maxHeight == s.windowHeight && r.value.value.maxWidth == p.width
  {
    match p.images
    case None => Normal(None)
    case Some(images) =>
      if |images| == 0 then Normal(None)
      else if !(0 <= p.currentImage < |images|) then TypeError
      else
        var image := images[p.currentImage];
        var (srcSet, sizes) := ResponsiveSources(image);
        Normal(Some(Figure(image.src, srcSet, sizes, OnClickImage in p.supplied,
                           s.windowHeight, p.width, RenderFooter(p, image.caption))))
  }

  function RenderArrowPrev(p: Props): (shown: bool)
    ensures shown <==> p.currentImage != 0
  {
    !(p.currentImage == 0)
  }

  /** Reading `images.length` throws when there are no images. */
  function RenderArrowNext(p: Props): (r: Completion<bool>)
    ensures p.images.None? <==> r.TypeError?
    ensures p.images.Some? ==> (r.value <==> p.currentImage != |p.images.value| - 1)
  {
    match p.images
    case None => TypeError
    case Some(images) => Normal(!(p.currentImage == |images| - 1))
  }

  /** The pointer cursor promises exactly what a click on the image does: it asks for `onClickImage`. */
  lemma ImageClickMatchesCursor(p: Props, s: State)
    requires ValidIndex(p)
    ensures RenderImages(p, s).value.value.clickable <==> HandleImageClick(p) == [Fired(OnClickImage)]
    ensures !RenderImages(p, s).value.value.clickable <==> HandleImageClick(p) == []
  {
  }

  /** Each arrow is shown exactly when clicking it does something, and then it asks the caller to
      move; the next arrow fails to render exactly when "next", triggered by a click, would throw
      before cancelling the click. */
  lemma ArrowsMatchRequests(p: Props, hasEvent: bool)
    ensures RenderArrowPrev(p) <==> GotoPrev(p, hasEvent) != Reaction([], Normal(Undefined))
    ensures OnClickPrev in p.supplied ==>
              (RenderArrowPrev(p) <==> FiredCount(GotoPrev(p, hasEvent).effects, OnClickPrev) == 1)
    ensures RenderArrowNext(p).TypeError? <==> GotoNext(p, true) == Reaction([], TypeError)
    ensures RenderArrowNext(p) == Normal(true) <==>
              p.images.Some? && GotoNext(p, hasEvent) != Reaction([], Normal(Undefined))
    ensures OnClickNext in p.supplied ==>
              (RenderArrowNext(p) == Normal(true) <==> FiredCount(GotoNext(p, hasEvent).effects, OnClickNext) == 1)
  {
    StepsFireOwnCallbackOnce(p, hasEvent);
  }

  datatype CloseBar = CloseBar(customControls: bool, closeButton: bool)

  datatype Dialog = Dialog(closeBar: CloseBar, figure: Option<Figure>, arrowPrev: bool, arrowNext: bool)

  /** Closed, nothing; open, the close bar, the figure and the two arrows, evaluated in that order. */
  function RenderDialog(p: Props, s: State): (r: Completion<Option<Dialog>>)
    ensures !p.isOpen ==> r == Normal(None)
    ensures p.isOpen && p.images.None? ==> r.TypeError?
    ensures p.isOpen && ValidIndex(p) ==>
              && r.Normal? && r.value.Some?
              && r.value.value.figure == RenderImages(p, s).value
              && (r.value.value.arrowPrev <==> p.currentImage > 0)
              && (r.value.value.arrowNext <==> p.currentImage < |p.images.value| - 1)
              && r.value.value.closeBar == CloseBar(p.customControls, p.showCloseButton)
  {
    if !p.isOpen then Normal(None)
    else
      var closeBar := CloseBar(p.customControls, p.showCloseButton);
      match RenderImages(p, s)
      case TypeError => TypeError
      case Normal(figure) =>
        match RenderArrowNext(p)
        case TypeError => TypeError
        case Normal(next) => Normal(Some(Dialog(closeBar, figure, RenderArrowPrev(p), next)))
  }

  /** Three images: in the middle both arrows show, at either end the arrow that would leave the list is gone. */
  lemma ThreeImageArrows(p: Props)
    requires p.images == Some([Image("a.jpg", None, None), Image("b.jpg", None, None), Image("c.jpg", None, None)])
    ensures p.currentImage == 1 ==> RenderArrowPrev(p) && RenderArrowNext(p) == Normal(true)
    ensures p.currentImage == 0 ==> !RenderArrowPrev(p)
    ensures p.currentImage == 2 ==> RenderArrowNext(p) == Normal(false)
  {
  }

  /** The two variants of one image become one candidate string and a full-width sizing hint. */
  lemma TwoVariantSrcset()
    ensures ResponsiveSources(Image("a.jpg", Some(["a-1x.jpg", "a-2x.jpg"]), None))
         == (Some("a-1x.jpg,a-2x.jpg"), Some("100vw"))
  {
    var variants := ["a-1x.jpg", "a-2x.jpg"];
    assert variants[1..] == ["a-2x.jpg"];
    assert JoinComma(variants) == "a-1x.jpg" + "," + "a-2x.jpg";
    assert "a-1x.jpg" + "," + "a-2x.jpg" == "a-1x.jpg,a-2x.jpg";
  }
}

=== FILE: number_text.dfy ===
/**
 How JavaScript turns an integer into text when it is concatenated with a
 string (`scrollBarWidth + 'px'`) or rendered as a text child (the image
 count): an optional minus sign followed by the decimal digits, without
 leading zeros. A parser is given as the partner, and the two round-trip.
 */
module NumberText {
  import opened Js

  predicate IsDigit(c: char) {
    '0' <= c <= '9'
  }

  predicate AllDigits(s: string) {
    forall i :: 0 <= i < |s| ==> IsDigit(s[i])
  }

  function DigitChar(d: nat): (c: char)
    requires d < 10
    ensures IsDigit(c)
    ensures c as int - '0' as int == d
  {
    (d + '0' as int) as char
  }

  /** The decimal digits of `n`, most significant first. */
  function Digits(n: nat): (s: string)
    ensures |s| > 0 && AllDigits(s)
    ensures |s| == 1 || s[0] != '0'
    decreases n
  {
    if n < 10 then [DigitChar(n)] else Digits(n / 10) + [DigitChar(n % 10)]
  }

  /** The text of the integer `i`, as `String(i)` gives it for magnitudes below 10^21 (from there
      on JavaScript switches to exponent form, which this model does not write). */
  function Decimal(i: int): (s: string)
    ensures |s| > 0
    ensures i < 0 <==> s[0] == '-'
    ensures i < 0 ==> |s| > 1 && AllDigits(s[1..]) && (s[1] != '0')
    ensures i >= 0 ==> AllDigits(s) && (|s| == 1 || s[0] != '0')
    ensures i == 0 <==> s == "0"
  {
    if i < 0 then "-" + Digits(-i) else Digits(i)
  }

  function ParseDigits(s: string): nat
    requires AllDigits(s)
    decreases |s|
  {
    if |s| == 0 then 0
    else ParseDigits(s[..|s| - 1]) * 10 + (s[|s| - 1] as int - '0' as int)
  }

  /** Reads back an optional minus sign followed by at least one digit. */
  function ParseDecimal(s: string): Option<int>
  {
    if |s| > 1 && s[0] == '-' && AllDigits(s[1..]) then Some(-(ParseDigits(s[1..]) as int))
    else if |s| > 0 && AllDigits(s) then Some(ParseDigits(s))
    else None
  }

  lemma {:induction false} DigitsRoundTrip(n: nat)
    ensures ParseDigits(Digits(n)) == n
    decreases n
  {
    if n >= 10 {
      var s := Digits(n);
      assert s[..|s| - 1] == Digits(n / 10);
      DigitsRoundTrip(n / 10);
    }
  }

  /** Parsing the text of an integer gives the integer back. */
  lemma DecimalRoundTrip(i: int)
    ensures ParseDecimal(Decimal(i)) == Some(i)
  {
    if i < 0 {
      assert Decimal(i)[1..] == Digits(-i);
      DigitsRoundTrip(-i);
    } else {
      DigitsRoundTrip(i);
    }
  }

  /** Distinct integers are written differently. */
  lemma DecimalInjective(i: int, j: int)
    requires Decimal(i) == Decimal(j)
    ensures i == j
  {
    DecimalRoundTrip(i);
    DecimalRoundTrip(j);
  }

  /** Length of the longest prefix of `s` shaped like a written integer: an optional '-', then digits. */
  function NumberPrefixLength(s: string): (k: nat)
    ensures k <= |s|
  {
    if |s| > 0 && s[0] == '-' then 1 + DigitRunLength(s[1..]) else DigitRunLength(s)
  }

  function DigitRunLength(s: string): (k: nat)
    ensures k <= |s|
    ensures AllDigits(s[..k])
    ensures k < |s| ==> !IsDigit(s[k])
    decreases |s|
  {
    if |s| > 0 && IsDigit(s[0]) then 1 + DigitRunLength(s[1..]) else 0
  }

  lemma {:induction false} DigitRunOfDigits(d: string, rest: string)
    requires AllDigits(d)
    requires |rest| == 0 || !IsDigit(rest[0])
    ensures DigitRunLength(d + rest) == |d|
    decreases |d|
  {
    if |d| > 0 {
      assert (d + rest)[1..] == d[1..] + rest;
      DigitRunOfDigits(d[1..], rest);
    }
  }

  /** The written integer is exactly the number-shaped prefix when a non-digit follows it. */
  lemma NumberPrefixOfDecimal(i: int, rest: string)
    requires |rest| == 0 || !IsDigit(rest[0])
    ensures NumberPrefixLength(Decimal(i) + rest) == |Decimal(i)|
  {
    var s := Decimal(i) + rest;
    if i < 0 {
      assert s[0] == '-';
      assert s[1..] == Decimal(i)[1..] + rest;
      DigitRunOfDigits(Decimal(i)[1..], rest);
    } else {
      DigitRunOfDigits(Decimal(i), rest);
    }
  }
}

=== FILE: theme.dfy ===
/**
 The static `Lightbox.theme(themeStyles)` helper of the bundled component: it
 derives a stylesheet from the default one, letting the caller override
 individual properties of individual rules. A stylesheet maps a rule name
 (`arrow`, `footer`, ...) to a style, and a style maps a property name to a
 value; the values themselves are presentational and left abstract.
 */
module Theme {
  import opened Js

  type Style<V> = map<string, V>
  type Sheet<V> = map<string, Style<V>>

  /** `_extends({}, target, source)`: a shallow copy of `target` with every property of `source` written over it. */
  function Extend<V>(target: Style<V>, source: Style<V>): (r: Style<V>)
    ensures r.Keys == target.Keys + source.Keys
    ensures forall p :: p in source ==> r[p] == source[p]
    ensures forall p :: p in target && p !in source ==> r[p] == target[p]
  {
    target + source
  }

  /** The stylesheet `theme(overrides)` returns when the default stylesheet is `defaults`. */
  function ThemeSheet<V>(defaults: Sheet<V>, overrides: Sheet<V>): (r: Sheet<V>)
    // Exactly the default rules: override rules the defaults lack are dropped.
    ensures r.Keys == defaults.Keys
    // A rule carries the default's properties plus the override's, and the override wins on each it names.
    ensures forall k :: k in r ==>
              r[k].Keys == defaults[k].Keys + (if k in overrides then overrides[k].Keys else {})
    ensures forall k, p :: k in r && p in r[k] ==>
              r[k][p] == (if k in overrides && p in overrides[k] then overrides[k][p] else defaults[k][p])
  {
    map k | k in defaults :: if k in overrides then Extend(defaults[k], overrides[k]) else defaults[k]
  }

  /** An empty override set yields the default stylesheet itself. */
  lemma NoOverridesIsDefault<V>(defaults: Sheet<V>)
    ensures ThemeSheet(defaults, map[]) == defaults
  {
  }

  /** Override rules whose names the defaults lack have no effect at all. */
  lemma UnknownRulesIgnored<V>(defaults: Sheet<V>, overrides: Sheet<V>)
    ensures ThemeSheet(defaults, overrides)
         == ThemeSheet(defaults, map k | k in overrides && k in defaults :: overrides[k])
  {
  }

  /** Theming an already themed sheet with the same overrides changes nothing. */
  lemma ThemeIdempotent<V>(defaults: Sheet<V>, overrides: Sheet<V>)
    ensures ThemeSheet(ThemeSheet(defaults, overrides), overrides) == ThemeSheet(defaults, overrides)
  {
    var once := ThemeSheet(defaults, overrides);
    var twice := ThemeSheet(once, overrides);
    forall k | k in once
      ensures twice[k] == once[k]
    {
      if k in overrides {
        assert twice[k].Keys == once[k].Keys;
      }
    }
  }

  /** Two successive themings equal one theming with the rule-wise combination of both override sets. */
  lemma ThemeComposes<V>(defaults: Sheet<V>, first: Sheet<V>, second: Sheet<V>)
    ensures ThemeSheet(ThemeSheet(defaults, first), second)
         == ThemeSheet(defaults, CombineOverrides(first, second))
  {
    var mid := ThemeSheet(defaults, first);
    var both := CombineOverrides(first, second);
    var lhs := ThemeSheet(mid, second);
    var rhs := ThemeSheet(defaults, both);
    assert lhs.Keys == rhs.Keys;
    forall k | k in defaults
      ensures lhs[k] == rhs[k]
    {
      var o1 := if k in first then Some(first[k]) else None;
      var o2 := if k in second then Some(second[k]) else None;
      var o12 := if k in both then Some(both[k]) else None;
      assert mid[k] == (if o1.Some? then Extend(defaults[k], o1.value) else defaults[k]);
      assert lhs[k] == (if o2.Some? then Extend(mid[k], o2.value) else mid[k]);
      assert o12 == (if o1.Some? && o2.Some? then Some(Extend(o1.value, o2.value))
                     else if o1.Some? then o1 else o2);
      assert rhs[k] == (if o12.Some? then Extend(defaults[k], o12.value) else defaults[k]);
      RuleComposes(defaults[k], mid[k], lhs[k], rhs[k], o1, o2, o12);
    }
  }

  /** One rule of `ThemeComposes`, with the three optional overrides of that rule made explicit. */
  lemma RuleComposes<V>(d: Style<V>, mid: Style<V>, lhs: Style<V>, rhs: Style<V>,
                        o1: Option<Style<V>>, o2: Option<Style<V>>, o12: Option<Style<V>>)
    requires mid == (if o1.Some? then Extend(d, o1.value) else d)
    requires lhs == (if o2.Some? then Extend(mid, o2.value) else mid)
    requires o12 == (if o1.Some? && o2.Some? then Some(Extend(o1.value, o2.value))
                     else if o1.Some? then o1 else o2)
    requires rhs == (if o12.Some? then Extend(d, o12.value) else d)
    ensures lhs == rhs
  {
    if o1.Some? && o2.Some? {
      assert lhs.Keys == rhs.Keys;
    }
  }

  /** Rule-wise combination of two override sets, the second winning property by property. */
  function CombineOverrides<V>(first: Sheet<V>, second: Sheet<V>): (r: Sheet<V>)
    ensures r.Keys == first.Keys + second.Keys
  {
    map k | k in first.Keys + second.Keys ::
      if k in first && k in second then Extend(first[k], second[k])
      else if k in first then first[k]
      else second[k]
  }
}
